=== FILE: README.md ===
# Flannel setup of the k3s node agent, in Dafny

This project models `pkg/agent/flannel/setup.go`, the part of the k3s node agent
that runs before the flannel network backend starts. It does three things:

- **Configuration generation** (`Prepare`, `createCNIConf`, `createFlannelConf`).
  The fixed CNI conflist is written to `<CNI conf dir>/10-flannel.conflist`.
  The flannel config is written from the `flannelConf` template. Two substitutions
  fill it: `%CIDR%` gets the cluster CIDR, and `%backend%` gets the backend block
  for the configured kind (vxlan, host-gw, ipsec or wireguard).
- **StrongSwan link reconciliation** (`setupStrongSwan`). For the IPsec backend, the
  strongSwan directory must be a symbolic link to `<data dir>/etc/strongswan`.
- **Waiting for the pod CIDR** (`waitForPodCIDR` and the synchronous part of `Run`).
  The agent reads node watch events until the node carries a pod CIDR.

Files and modules:

- `wrappers.dfy` (`Wrappers`): `Option` and `Result`.
- `strings.dfy` (`GoStrings`): Go's `strings.ReplaceAll`. Matches do not overlap,
  the scan runs left to right, and inserted text is never rescanned. An empty
  pattern is handled as Go does. The lemmas cover a marker that is absent, occurs
  once, or is followed by more text.
- `paths.dfy` (`FilePath`): simplified `filepath.Join` and `filepath.Dir`, and the
  fact that `Dir` undoes `Join`.
- `templates.dfy` (`Templates`): the constant texts of lines 21-72, cut at their
  markers and assembled from short named pieces (JSON keys, shell words); the backend switch; and the text each substitution produces.
- `flannel.dfy` (`Flannel`): the node state and the operations. The filesystem is a
  map from path to entry, where an entry is a symbolic link or anything else.
  A `Faults` value names the paths on which each system call fails. Each filesystem
  operation is a function from the old state to a `Step` (new state and returned
  error). The class `Agent` holds the filesystem, counters of watches opened and
  stopped, the number of events received, and the "flannel started" flag. Its methods
  make the same calls in the same order as the Go code. Each filesystem method is
  proved to produce its function's `Step`. `WaitForPodCIDR` and `Run` are proved
  against `WaitResult` and `Received` and the watch counters.

## Model

| member | source | states |
|---|---|---|
| `GoStrings.ReplaceAll` | pkg/agent/flannel/setup.go:135 | Go's `strings.ReplaceAll`; its contract is the lemmas `ReplaceCopiesUnmatchedPrefix`, `ReplaceSkipsUnmatched`, `ReplaceFirstMatch`, `ReplaceOnce` and `ReplaceAbsent` |
| `GoStrings.ReplaceCopiesUnmatchedPrefix` | pkg/agent/flannel/setup.go:135 | `ReplaceAll` copies a prefix in which no match starts, unchanged, and scans the rest independently |
| `GoStrings.ReplaceAbsent` | pkg/agent/flannel/setup.go:135-154 | a text in which the marker never occurs comes back unchanged |
| `GoStrings.ReplaceFirstMatch` | pkg/agent/flannel/setup.go:154 | the first match is replaced and scanning resumes after it, so the inserted text is never rescanned, whatever it contains |
| `GoStrings.ReplaceSkipsUnmatched` | pkg/agent/flannel/setup.go:135 | corollary of `ReplaceCopiesUnmatchedPrefix` for a text given as a concatenation `a + t`: `ReplaceAll(a + t) == a + ReplaceAll(t)` when no match starts in `a` |
| `GoStrings.ReplaceOnce` | pkg/agent/flannel/setup.go:145 | a marker that occurs exactly once is replaced verbatim and nothing else changes |
| `GoStrings.NoMatchWithoutLead` | pkg/agent/flannel/setup.go:135-154 | a text without the marker's first character contains no marker |
| `FilePath.Join` | pkg/agent/flannel/setup.go:123 | the result starts with the directory and ends with the name; at most one character is added between them, and it is `/` |
| `FilePath.Dir` | pkg/agent/flannel/setup.go:150 | `filepath.Dir`; its contract is the lemma `DirOfJoin` |
| `FilePath.DirOfJoin` | pkg/agent/flannel/setup.go:150 | `Dir(Join(dir, name)) == dir` for a clean directory and a plain file name |
| `Templates.BackendBlock` | pkg/agent/flannel/setup.go:139-153 | a backend block exists exactly for the four known kinds; any other kind gets none |
| `Templates.ReplaceSingleMarker` | pkg/agent/flannel/setup.go:145 | in a text with one marker and no other `%`, the marker is replaced by the given text verbatim and nothing else changes |
| `Templates.ReplaceTwoMarkers` | pkg/agent/flannel/setup.go:150 | in a text with two equal markers and no other `%`, both are replaced and nothing else changes |
| `Templates.CidrPass` | pkg/agent/flannel/setup.go:135 | the `%CIDR%` pass puts the CIDR in place and keeps the `%backend%` marker and the rest as they were |
| `Templates.RenderFlannelConf` | pkg/agent/flannel/setup.go:135-154 | the two `ReplaceAll` passes over the template; its contract is the lemma `RenderedFlannelConf` |
| `Templates.RenderedFlannelConf` | pkg/agent/flannel/setup.go:135-154 | the rendered flannel config is the template's head, the CIDR, the middle, the backend block verbatim and the tail, for any block |
| `Templates.IpsecBlockEmbedsPsk` | pkg/agent/flannel/setup.go:145 | the IPsec block holds the pre-shared key verbatim, even a key that contains marker text |
| `Templates.WireguardBlockUsesDir` | pkg/agent/flannel/setup.go:150 | both `%flannelConfDir%` markers of the WireGuard block become the given directory |
| `Templates.WireguardBlockPlain` | pkg/agent/flannel/setup.go:150 | with a directory free of `%`, the WireGuard block holds no `%` at all |
| `Templates.WireguardBlockHasNoMarker` | pkg/agent/flannel/setup.go:150 | when the directory has no `%`, no `%flannelConfDir%` text is left in the WireGuard block |
| `Flannel.UnknownBackendMessage` | pkg/agent/flannel/setup.go:152 | the unknown-backend error message contains the backend name |
| `Flannel.ErrorText` | pkg/agent/flannel/setup.go:84 | a wrapped error's text starts with its message and ": " (line 84); the unknown-backend text is the message of line 152 and names the backend; a non-node error starts with the prefix of line 109 |
| `Flannel.Lstat` | pkg/agent/flannel/setup.go:167 | succeeds exactly on an existing path whose inspection does not fail, and returns its entry; an error is an `lstat` path error |
| `Flannel.Readlink` | pkg/agent/flannel/setup.go:173 | succeeds exactly on an existing symbolic link whose reading does not fail, and returns its target |
| `Flannel.RemoveStep` | pkg/agent/flannel/setup.go:181 | succeeds exactly on an existing path whose removal does not fail; then the path is gone, otherwise nothing changes |
| `Flannel.SymlinkStep` | pkg/agent/flannel/setup.go:184 | succeeds exactly on a free path whose linking does not fail; then the path is the new link, otherwise nothing changes |
| `Flannel.WriteStep` | pkg/agent/flannel/setup.go:124 | succeeds exactly when the write does not fail; then the path holds the content, otherwise nothing changes; no other path ever changes |
| `Flannel.CniConfStep` | pkg/agent/flannel/setup.go:119-125 | an empty dir writes nothing and succeeds; otherwise only `Join(dir, "10-flannel.conflist")` may change, it holds the fixed conflist on success, a failed write changes nothing, and the error is the write's |
| `Flannel.StrongSwanTarget` | pkg/agent/flannel/setup.go:160-165 | the link target is `/etc/strongswan` when the data-dir variable is empty, `<data dir>/etc/strongswan` when it does not end in `/`, and `<data dir>etc/strongswan` when it does |
| `Flannel.StrongSwanStep` | pkg/agent/flannel/setup.go:159-184 | only the managed path changes; a visible non-link is never touched; a link already right is not touched; on success the path is the right link or a foreign non-link; the only error is the symlink call's, returned exactly when the entry is not kept and linking fails or the old entry could not be removed; after it the old entry is gone unless its removal failed too |
| `Flannel.FlannelConfStep` | pkg/agent/flannel/setup.go:127-157 | an empty path or the override flag writes nothing and succeeds, for every kind; an unknown kind returns an error naming it and writes nothing |
| `Flannel.FlannelConfFrame` | pkg/agent/flannel/setup.go:127-157 | only the config path changes, plus the strongSwan path for IPsec; for every other kind only the config path |
| `Flannel.PrepareStep` | pkg/agent/flannel/setup.go:74-80 | the CNI step, then the flannel step unless the first failed; its contract is the lemmas `PrepareStopsAtCniError` and `PrepareAfterCni` |
| `Flannel.PrepareStopsAtCniError` | pkg/agent/flannel/setup.go:74-80 | a failed CNI write makes `Prepare` return that error unchanged with the state as before, so no flannel config is written and no link touched |
| `Flannel.PrepareAfterCni` | pkg/agent/flannel/setup.go:74-80 | after a successful CNI step, `Prepare` is the flannel step on the resulting state |
| `Flannel.FixedBackendConf` | pkg/agent/flannel/setup.go:135-156 | for vxlan and host-gw, exactly the template with the CIDR and the fixed block is written to the configured path, with the write's result |
| `Flannel.FixedBackendIgnoresSecrets` | pkg/agent/flannel/setup.go:139-143 | for vxlan and host-gw, the outcome does not depend on the pre-shared key, the strongSwan path or the data directory |
| `Flannel.IpsecConf` | pkg/agent/flannel/setup.go:144-148 | for ipsec, the link is reconciled first; its failure is returned with no config written; otherwise the config holds the key verbatim |
| `Flannel.WireguardConf` | pkg/agent/flannel/setup.go:149-156 | for wireguard, the written config names `Dir(FlannelConf)` at both key-file paths |
| `Flannel.PlainConfHasNoMarker` | pkg/agent/flannel/setup.go:135-156 | a flannel config built from a CIDR and a block without `%` holds no `%CIDR%`, `%backend%` or `%flannelConfDir%` text |
| `Flannel.WireguardConfHasNoMarker` | pkg/agent/flannel/setup.go:149-156 | the written WireGuard config holds no `%CIDR%`, `%backend%` or `%flannelConfDir%` text when the CIDR and the directory have no `%` |
| `Flannel.StrongSwanIdempotent` | pkg/agent/flannel/setup.go:167-178 | after a successful reconciliation, a second one changes nothing and succeeds |
| `Flannel.StrongSwanRelinks` | pkg/agent/flannel/setup.go:180-184 | a missing path or a link pointing elsewhere becomes the right link when remove and symlink work |
| `Flannel.StrongSwanRelinksAfterFailedInspection` | pkg/agent/flannel/setup.go:167-184 | when `Lstat` fails, or `Readlink` fails on a link, the entry is removed and relinked whatever it was, when remove and symlink work |
| `Flannel.StopIndex` | pkg/agent/flannel/setup.go:106-114 | the loop leaves at the first event that is not a node without a pod CIDR, or at the end of the stream |
| `Flannel.Received` | pkg/agent/flannel/setup.go:106-114 | the loop reads the unassigned events and one more, unless the stream ends first |
| `Flannel.WaitError` | pkg/agent/flannel/setup.go:106-116 | what the loop returns for an opened watch; its contract is the lemmas `WaitFailsIffOtherObjectFirst`, `WaitStopsAtAssignedNode`, `WaitFailsAtOtherObject` and `WaitSucceedsWhenStreamEnds` |
| `Flannel.WaitResult` | pkg/agent/flannel/setup.go:98-117 | a failed watch's error, else `WaitError` of its events; its contract is `Agent.WaitForPodCIDR`'s |
| `Flannel.WaitFailsIffOtherObjectFirst` | pkg/agent/flannel/setup.go:106-110 | the wait fails exactly when an event that is not a node comes before any node with a pod CIDR, and the error is then a conversion error |
| `Flannel.WaitStopsAtAssignedNode` | pkg/agent/flannel/setup.go:111-113 | the wait stops at the first node with a non-empty pod CIDR, having read exactly the events up to it, and succeeds |
| `Flannel.WaitFailsAtOtherObject` | pkg/agent/flannel/setup.go:107-110 | a non-node event fails the wait at once, and no later event is read |
| `Flannel.WaitSucceedsWhenStreamEnds` | pkg/agent/flannel/setup.go:106-116 | a stream that ends without an assigned node ends the wait with success |
| `Flannel.Agent.Remove` | pkg/agent/flannel/setup.go:181 | the new filesystem and the error are those of `RemoveStep` |
| `Flannel.Agent.MakeSymlink` | pkg/agent/flannel/setup.go:184 | the new filesystem and the error are those of `SymlinkStep` |
| `Flannel.Agent.WriteFile` | pkg/agent/flannel/setup.go:124 | the new filesystem and the error are those of `WriteStep` |
| `Flannel.Agent.CreateCNIConf` | pkg/agent/flannel/setup.go:119-125 | the new filesystem and the error are those of `CniConfStep` |
| `Flannel.Agent.SetupStrongSwan` | pkg/agent/flannel/setup.go:159-184 | Lstat, Readlink, Remove and Symlink in the source's order give exactly `StrongSwanStep` |
| `Flannel.Agent.CreateFlannelConf` | pkg/agent/flannel/setup.go:127-157 | the new filesystem and the error are those of `FlannelConfStep` |
| `Flannel.Agent.Prepare` | pkg/agent/flannel/setup.go:74-80 | the new filesystem and the error are those of the CNI step followed by the flannel step |
| `Flannel.Agent.WaitForPodCIDR` | pkg/agent/flannel/setup.go:98-117 | an open error is returned unchanged; a watch that fails to open is neither counted as opened nor stopped; otherwise the events read and the error follow `Received` and `WaitError`, and the one watch opened is stopped on every exit |
| `Flannel.Agent.Run` | pkg/agent/flannel/setup.go:82-95 | a wait error is wrapped with "failed to wait for PodCIDR assignment" and flannel is not started; otherwise it returns nil and flannel is started; a watch that fails to open leaves the counters and the events received as they were, otherwise exactly one watch is opened and stopped |

## Behaviour worth noting

- Link reconciliation returns no inspection error. After any `Lstat` error, and
  after a `Readlink` error on a link, `setupStrongSwan` removes the entry and
  relinks it (lines 167-184). Only the `Symlink` error is returned. The lemma
  `Flannel.StrongSwanRelinksAfterFailedInspection` states this.
- Cancellation is not checked. `waitForPodCIDR` never reads the context
  (lines 106-116). When the watch channel closes, the loop ends and the function
  returns nil. The lemma `Flannel.WaitSucceedsWhenStreamEnds` states this.

## Left out

- The goroutine in `Run` that runs `flannel(...)`, and its `logrus.Fatalf` (lines 87-92): concurrency and process exit. The launch is one flag, `flannelStarted`; `flannel` is not part of this model.
- The Kubernetes client: the field selector, `nodes.Watch` and `ResultChan` (lines 99-106). The watch is an input: an open error, or the finite sequence of events delivered before the channel closes. The node name is not used.
- Context cancellation: the loop never reads the context; cancellation shows only as the watch failing to open or the event sequence ending.
- `util.WriteFile` internals (temporary file, parent directories) and the real `os.Lstat`/`Readlink`/`Remove`/`Symlink`. Each call is an update of the path map. Failures come from the state (a missing path, a path already taken, a non-link given to `Readlink`) or from the `Faults` sets.
- `os.Getenv`: the data-dir value is the `dataDirEnv` parameter.
- `ClusterCIDR.String()`: the cluster CIDR is an opaque string.
- `filepath.Join`/`Dir`: `.` and `..` elements and repeated separators inside a path are not cleaned.
- Logging (lines 115 and 132).
- The `config.FlannelBackend*` constants live in pkg/daemons/config, which is not part of this model. The names "vxlan", "host-gw", "ipsec" and "wireguard" are used for them.
- Error texts: `Flannel.ErrorText` gives an errno the Linux text and a non-node event its description; Go's `%v` formatting of a watch event is not modelled. A failed `os.Symlink` returns an `*os.LinkError` naming both paths; the model renders it as a path error on the link path.
- `GoStrings.ReplaceAll`: a `char` stands for one rune. Invalid UTF-8 bytes are not modelled.
- Templates.RenderedFlannelConf: stated only for a CIDR text without `%`, because the `%backend%` pass rescans the CIDR text (a CIDR never holds `%`). The same holds for `Flannel.FixedBackendConf`, `Flannel.IpsecConf` and `Flannel.WireguardConf`.
- Templates.WireguardBlockHasNoMarker: stated only for a directory without `%`, because a directory containing the marker text would put it back verbatim.

=== FILE: flannel.dfy ===
/** The node agent's flannel setup (pkg/agent/flannel/setup.go): writing the CNI and
    flannel configuration files, reconciling the strongSwan directory link for the
    IPsec backend, and waiting until the node has been given a pod CIDR.

    The operating system is an explicit state: a map from path to entry, plus the
    set of paths on which each system call fails. Every filesystem operation is first
    given as a function from the old state to a `Step` (new state and returned
    error), and the methods of `Agent` perform the same calls one after the other,
    as the Go code does, and are proved to produce that step. Waiting for the pod
    CIDR is a loop proved against `WaitResult` and `Received`, with counters of the
    watches opened and stopped. */
module Flannel {
  import opened Wrappers
  import opened GoStrings
  import opened Templates
  import FilePath

  // ---------------------------------------------------------------------------
  // Node state

  /** A filesystem entry as `os.Lstat` sees it: a symbolic link or anything else. */
  datatype Entry = Data(content: string) | Symlink(target: string)

  type FileSystem = map<string, Entry>

  /** For each system call, the paths on which it fails with an I/O error, on top of
      the failures the state itself causes (a missing path, a path already taken). */
  datatype Faults = Faults(
    lstat: set<string>,
    readlink: set<string>,
    remove: set<string>,
    symlink: set<string>,
    write: set<string>)

  datatype Errno = NotExist | Exist | Invalid | IOFailure

  /** One watch event: a node object with its `Spec.PodCIDR`, or some other object. */
  datatype Event = NodeEvent(podCIDR: string) | OtherObject(description: string)

  datatype Error =
    | PathError(op: string, path: string, errno: Errno)
    | UnknownBackend(backend: string)
    | NotANode(event: Event)
    | ApiError(message: string)
    | Wrapped(message: string, cause: Error)

  /** The fields of `config.Node` the setup code reads. `clusterCIDR` is the text
      `ClusterCIDR.String()` produces. */
  datatype NodeConfig = NodeConfig(
    nodeName: string,
    cniConfDir: string,
    flannelConf: string,
    flannelConfOverride: bool,
    flannelBackend: string,
    clusterCIDR: string,
    ipsecPSK: string,
    strongSwanDir: string)

  /** The state after an operation and the error it returned. */
  datatype Step = Step(fs: FileSystem, err: Option<Error>)

  const WaitFailedMessage := "failed to wait for PodCIDR assignment"

  /** The error text for an unknown backend (`fmt.Errorf` at line 152). */
  function UnknownBackendMessage(backend: string): (m: string)
    ensures Contains(m, backend)
  {
    var prefix := "Cannot configure unknown flannel backend '";
    var m := prefix + backend + "'";
    assert m[|prefix|..|prefix| + |backend|] == backend;
    assert OccursAt(m, backend, |prefix|);
    m
  }

  /** Go's text for an errno. */
  function ErrnoText(e: Errno): string
  {
    match e
    case NotExist => "no such file or directory"
    case Exist => "file exists"
    case Invalid => "invalid argument"
    case IOFailure => "input/output error"
  }

  const NotANodePrefix := "could not convert event object to node: "

  /** The text of a returned error, as `Error()` gives it: `*os.PathError` is
      "op path: errno", `errors.Wrap` puts its message and ": " before the cause
      (line 84), and the unknown-backend and not-a-node errors are the
      `fmt.Errorf` texts of lines 109 and 152. */
  function ErrorText(e: Error): (r: string)
    ensures e.UnknownBackend? ==> r == UnknownBackendMessage(e.backend) && Contains(r, e.backend)
    ensures e.Wrapped? ==> |e.message| + 2 <= |r| && r[..|e.message| + 2] == e.message + ": "
    ensures e.NotANode? ==> |NotANodePrefix| <= |r| && r[..|NotANodePrefix|] == NotANodePrefix
  {
    match e
    case PathError(op, path, errno) => op + " " + path + ": " + ErrnoText(errno)
    case UnknownBackend(backend) => UnknownBackendMessage(backend)
    case NotANode(event) =>
      NotANodePrefix + (match event case NodeEvent(cidr) => cidr case OtherObject(d) => d)
    case ApiError(message) => message
    case Wrapped(message, cause) => message + ": " + ErrorText(cause)
  }

  // ---------------------------------------------------------------------------
  // System calls

  /** `os.Lstat`: the entry itself, links not followed. */
  function Lstat(fs: FileSystem, faults: Faults, p: string): (r: Result<Entry, Error>)
    ensures r.Ok? <==> p in fs && p !in faults.lstat
    ensures r.Ok? ==> r.value == fs[p]
    ensures r.Err? ==> r.error.PathError? && r.error.op == "lstat"
  {
    if p in faults.lstat then Err(PathError("lstat", p, IOFailure))
    else if p !in fs then Err(PathError("lstat", p, NotExist))
    else Ok(fs[p])
  }

  /** `os.Readlink`: the target of a symbolic link; any other entry is an error. */
  function Readlink(fs: FileSystem, faults: Faults, p: string): (r: Result<string, Error>)
    ensures r.Ok? <==> p in fs && fs[p].Symlink? && p !in faults.readlink
    ensures r.Ok? ==> fs[p] == Symlink(r.value)
  {
    if p in faults.readlink then Err(PathError("readlink", p, IOFailure))
    else if p !in fs then Err(PathError("readlink", p, NotExist))
    else if !fs[p].Symlink? then Err(PathError("readlink", p, Invalid))
    else Ok(fs[p].target)
  }

  /** `os.Remove`: the entry goes, or nothing changes. */
  function RemoveStep(fs: FileSystem, faults: Faults, p: string): (r: Step)
    ensures r.err.None? <==> p in fs && p !in faults.remove
    ensures r.err.None? ==> r.fs == fs - {p}
    ensures r.err.Some? ==> r.fs == fs
  {
    if p in faults.remove then Step(fs, Some(PathError("remove", p, IOFailure)))
    else if p !in fs then Step(fs, Some(PathError("remove", p, NotExist)))
    else Step(fs - {p}, None)
  }

  /** `os.Symlink`: a new link at a free path, or nothing changes. */
  function SymlinkStep(fs: FileSystem, faults: Faults, target: string, p: string): (r: Step)
    ensures r.err.None? <==> p !in fs && p !in faults.symlink
    ensures r.err.None? ==> r.fs == fs[p := Symlink(target)]
    ensures r.err.Some? ==> r.fs == fs
  {
    if p in faults.symlink then Step(fs, Some(PathError("symlink", p, IOFailure)))
    else if p in fs then Step(fs, Some(PathError("symlink", p, Exist)))
    else Step(fs[p := Symlink(target)], None)
  }

  /** `util.WriteFile`: the file is replaced as a whole, or nothing changes. */
  function WriteStep(fs: FileSystem, faults: Faults, p: string, content: string): (r: Step)
    ensures r.err.None? <==> p !in faults.write
    ensures r.err.None? ==> r.fs == fs[p := Data(content)]
    ensures r.err.Some? ==> r.fs == fs
    ensures r.fs - {p} == fs - {p}
  {
    if p in faults.write then Step(fs, Some(PathError("write", p, IOFailure)))
    else Step(fs[p := Data(content)], None)
  }

  // ---------------------------------------------------------------------------
  // The setup operations as functions of the state

  /** Where the CNI configuration goes. */
  function CniConfPath(dir: string): string
  {
    FilePath.Join(dir, CniConfFileName)
  }

  /** `createCNIConf` (lines 119-125). */
  function CniConfStep(fs: FileSystem, faults: Faults, dir: string): (r: Step)
    ensures dir == "" ==> r == Step(fs, None)
    ensures r.fs - {CniConfPath(dir)} == fs - {CniConfPath(dir)}
    ensures r.err.None? && dir != "" ==> CniConfPath(dir) in r.fs && r.fs[CniConfPath(dir)] == Data(CniConf)
    ensures r.err.None? <==> dir == "" || CniConfPath(dir) !in faults.write
    ensures r.err.Some? ==> r.fs == fs
    // the error returned is the write's own
    ensures dir != "" ==> r.err == WriteStep(fs, faults, CniConfPath(dir), CniConf).err
  {
    if dir == "" then Step(fs, None)
    else WriteStep(fs, faults, CniConfPath(dir), CniConf)
  }

  /** The link target for the strongSwan directory: `<data dir>/etc/strongswan`, with
      the root directory when the data-dir environment variable is empty
      (lines 160-165). */
  function StrongSwanTarget(dataDirEnv: string): (t: string)
    ensures dataDirEnv == "" ==> t == "/etc/strongswan"
    ensures dataDirEnv != "" && dataDirEnv[|dataDirEnv| - 1] != '/' ==> t == dataDirEnv + "/etc/strongswan"
    ensures dataDirEnv != "" && dataDirEnv[|dataDirEnv| - 1] == '/' ==> t == dataDirEnv + "etc/strongswan"
  {
    var dataDir := if dataDirEnv == "" then "/" else dataDirEnv;
    var t := FilePath.Join(FilePath.Join(dataDir, "etc"), "strongswan");
    assert dataDirEnv != "" && dataDirEnv[|dataDirEnv| - 1] != '/' ==>
      t == dataDirEnv + "/" + "etc" + "/" + "strongswan";
    assert dataDirEnv != "" && dataDirEnv[|dataDirEnv| - 1] == '/' ==>
      t == dataDirEnv + "etc" + "/" + "strongswan";
    t
  }

  /** `setupStrongSwan` (lines 159-184): a link already right, or an entry that is
      not a link, is left alone; in every other case, a failed `Lstat` or `Readlink`
      included, the entry is removed (a failure ignored) and the link is created. */
  function StrongSwanStep(fs: FileSystem, faults: Faults, dataDirEnv: string, dir: string): (r: Step)
    // only the managed path can change
    ensures r.fs - {dir} == fs - {dir}
    // an entry that is seen not to be a link is never touched
    ensures dir in fs && dir !in faults.lstat && !fs[dir].Symlink? ==> r == Step(fs, None)
    // a link that already points at the target is not touched
    ensures (dir in fs && dir !in faults.lstat && dir !in faults.readlink
             && fs[dir] == Symlink(StrongSwanTarget(dataDirEnv))) ==> r == Step(fs, None)
    // on success the path holds the right link, or an object that is not a link
    ensures r.err.None? ==>
              dir in r.fs
              && (r.fs[dir] == Symlink(StrongSwanTarget(dataDirEnv)) || (r.fs == fs && !fs[dir].Symlink?))
    // the only error returned is that of creating the link; the old entry is gone
    // then, unless removing it failed too
    ensures r.err.Some? ==> r.err.value.PathError? && r.err.value.op == "symlink"
    ensures r.err.Some? && dir !in faults.remove ==> r.fs == fs - {dir}
    ensures r.err.Some? && dir in faults.remove ==> r.fs == fs
    // an error is returned exactly when the entry is not kept and the link cannot be
    // made: linking fails, or the old entry could not be removed
    ensures r.err.Some? <==>
              !(dir in fs && dir !in faults.lstat
                && (!fs[dir].Symlink?
                    || (dir !in faults.readlink && fs[dir] == Symlink(StrongSwanTarget(dataDirEnv)))))
              && (dir in faults.symlink || (dir in fs && dir in faults.remove))
  {
    var target := StrongSwanTarget(dataDirEnv);
    var info := Lstat(fs, faults, dir);
    if info.Ok? && !info.value.Symlink? then Step(fs, None)
    else if info.Ok? && Readlink(fs, faults, dir) == Ok(target) then Step(fs, None)
    else
      var removed := RemoveStep(fs, faults, dir);
      SymlinkStep(removed.fs, faults, target, dir)
  }

  /** `createFlannelConf` (lines 127-157). */
  function FlannelConfStep(fs: FileSystem, faults: Faults, cfg: NodeConfig, dataDirEnv: string): (r: Step)
    // skipped: no path configured, or an operator-supplied file
    ensures cfg.flannelConf == "" || cfg.flannelConfOverride ==> r == Step(fs, None)
    // an unknown backend writes nothing and names the backend
    ensures cfg.flannelConf != "" && !cfg.flannelConfOverride && !KnownBackend(cfg.flannelBackend)
            ==> r == Step(fs, Some(UnknownBackend(cfg.flannelBackend)))
  {
    if cfg.flannelConf == "" then Step(fs, None)
    else if cfg.flannelConfOverride then Step(fs, None)
    else
      match BackendBlock(cfg.flannelBackend, cfg.ipsecPSK, cfg.flannelConf)
      case None => Step(fs, Some(UnknownBackend(cfg.flannelBackend)))
      case Some(block) =>
        var linked :=
          if cfg.flannelBackend == BackendIPSEC then StrongSwanStep(fs, faults, dataDirEnv, cfg.strongSwanDir)
          else Step(fs, None);
        if linked.err.Some? then linked
        else WriteStep(linked.fs, faults, cfg.flannelConf, RenderFlannelConf(cfg.clusterCIDR, block))
  }

  /** Two states that agree outside `p` agree outside `p` and `q`. */
  lemma FrameWiden(a: FileSystem, b: FileSystem, p: string, q: string)
    requires a - {p} == b - {p}
    ensures a - {p, q} == b - {p, q}
  {
    assert a - {p, q} == (a - {p}) - {q};
    assert b - {p, q} == (b - {p}) - {q};
  }

  /** Changing `q` and then `p` changes nothing outside the two. */
  lemma FrameCompose(a: FileSystem, b: FileSystem, c: FileSystem, p: string, q: string)
    requires a - {p} == b - {p} && b - {q} == c - {q}
    ensures a - {p, q} == c - {p, q}
  {
    FrameWiden(a, b, p, q);
    FrameWiden(c, b, q, p);
    assert {q, p} == {p, q};
  }

  /** `createFlannelConf` changes only the config file, and for IPsec the
      strongSwan path. */
  lemma FlannelConfFrame(fs: FileSystem, faults: Faults, cfg: NodeConfig, dataDirEnv: string)
    ensures var r := FlannelConfStep(fs, faults, cfg, dataDirEnv);
            (cfg.flannelBackend != BackendIPSEC ==> r.fs - {cfg.flannelConf} == fs - {cfg.flannelConf})
            && r.fs - {cfg.flannelConf, cfg.strongSwanDir} == fs - {cfg.flannelConf, cfg.strongSwanDir}
  {
    var r := FlannelConfStep(fs, faults, cfg, dataDirEnv);
    if cfg.flannelBackend == BackendIPSEC && cfg.flannelConf != "" && !cfg.flannelConfOverride {
      var linked := StrongSwanStep(fs, faults, dataDirEnv, cfg.strongSwanDir);
      if linked.err.Some? {
        FrameWiden(r.fs, fs, cfg.strongSwanDir, cfg.flannelConf);
        assert {cfg.strongSwanDir, cfg.flannelConf} == {cfg.flannelConf, cfg.strongSwanDir};
      } else {
        FrameCompose(r.fs, linked.fs, fs, cfg.flannelConf, cfg.strongSwanDir);
      }
    } else {
      assert r.fs - {cfg.flannelConf} == fs - {cfg.flannelConf};
      FrameWiden(r.fs, fs, cfg.flannelConf, cfg.strongSwanDir);
    }
  }

  /** `Prepare` (lines 74-80): the CNI configuration, then the flannel one. */
  function PrepareStep(fs: FileSystem, faults: Faults, cfg: NodeConfig, dataDirEnv: string): Step
  {
    var cni := CniConfStep(fs, faults, cfg.cniConfDir);
    if cni.err.Some? then cni else FlannelConfStep(cni.fs, faults, cfg, dataDirEnv)
  }

  // ---------------------------------------------------------------------------
  // What the written files contain

  /** A failed CNI write stops `Prepare`: its error is returned unchanged and the
      state is as before, so no flannel config is written and no link touched. */
  lemma PrepareStopsAtCniError(fs: FileSystem, faults: Faults, cfg: NodeConfig, dataDirEnv: string)
    requires CniConfStep(fs, faults, cfg.cniConfDir).err.Some?
    ensures PrepareStep(fs, faults, cfg, dataDirEnv) == Step(fs, CniConfStep(fs, faults, cfg.cniConfDir).err)
  {
  }

  /** When the CNI step succeeds, `Prepare` is the flannel step on the state it left. */
  lemma PrepareAfterCni(fs: FileSystem, faults: Faults, cfg: NodeConfig, dataDirEnv: string)
    requires CniConfStep(fs, faults, cfg.cniConfDir).err.None?
    ensures PrepareStep(fs, faults, cfg, dataDirEnv)
         == FlannelConfStep(CniConfStep(fs, faults, cfg.cniConfDir).fs, faults, cfg, dataDirEnv)
  {
  }

  /** VXLAN and host-gw: the fixed block is put into the template with the CIDR,
      and written to the configured path only. */
  lemma FixedBackendConf(fs: FileSystem, faults: Faults, cfg: NodeConfig, dataDirEnv: string)
    requires cfg.flannelConf != "" && !cfg.flannelConfOverride
    requires cfg.flannelBackend == BackendVXLAN || cfg.flannelBackend == BackendHostGW
    requires '%' !in cfg.clusterCIDR
    ensures FlannelConfStep(fs, faults, cfg, dataDirEnv)
         == WriteStep(fs, faults, cfg.flannelConf,
                      FlannelConfText(cfg.clusterCIDR,
                                      if cfg.flannelBackend == BackendVXLAN then VxlanBackend else HostGWBackend))
  {
    BackendNamesDiffer();
    var block := if cfg.flannelBackend == BackendVXLAN then VxlanBackend else HostGWBackend;
    RenderedFlannelConf(cfg.clusterCIDR, block);
  }

  /** VXLAN and host-gw: the outcome depends neither on the pre-shared key, nor on
      the strongSwan path, nor on the data directory. */
  lemma FixedBackendIgnoresSecrets(fs: FileSystem, faults: Faults, cfg: NodeConfig, dataDirEnv: string,
                                   psk: string, strongSwanDir: string, otherEnv: string)
    requires cfg.flannelBackend == BackendVXLAN || cfg.flannelBackend == BackendHostGW
    ensures FlannelConfStep(fs, faults, cfg, dataDirEnv)
         == FlannelConfStep(fs, faults, cfg.(ipsecPSK := psk, strongSwanDir := strongSwanDir), otherEnv)
  {
  }

  /** IPsec: the link is reconciled first; if that fails its error is returned and no
      config is written, otherwise the key is written verbatim into the config. */
  lemma IpsecConf(fs: FileSystem, faults: Faults, cfg: NodeConfig, dataDirEnv: string)
    requires cfg.flannelConf != "" && !cfg.flannelConfOverride
    requires cfg.flannelBackend == BackendIPSEC
    requires '%' !in cfg.clusterCIDR
    ensures var linked := StrongSwanStep(fs, faults, dataDirEnv, cfg.strongSwanDir);
            (FlannelConfStep(fs, faults, cfg, dataDirEnv)
             == if linked.err.Some? then linked
                else WriteStep(linked.fs, faults, cfg.flannelConf,
                               FlannelConfText(cfg.clusterCIDR, IpsecHead + cfg.ipsecPSK + IpsecTail)))
  {
    BackendNamesDiffer();
    IpsecBlockEmbedsPsk(cfg.ipsecPSK);
    RenderedFlannelConf(cfg.clusterCIDR, IpsecHead + cfg.ipsecPSK + IpsecTail);
  }

  /** WireGuard: both key-file paths in the config name the config file's directory. */
  lemma WireguardConf(fs: FileSystem, faults: Faults, cfg: NodeConfig, dataDirEnv: string)
    requires cfg.flannelConf != "" && !cfg.flannelConfOverride
    requires cfg.flannelBackend == BackendWireguard
    requires '%' !in cfg.clusterCIDR
    ensures var dir := FilePath.Dir(cfg.flannelConf);
            (FlannelConfStep(fs, faults, cfg, dataDirEnv)
             == WriteStep(fs, faults, cfg.flannelConf,
                          FlannelConfText(cfg.clusterCIDR,
                                          WireguardPart0 + dir + WireguardPart1 + dir + WireguardPart2)))
  {
    BackendNamesDiffer();
    var dir := FilePath.Dir(cfg.flannelConf);
    var block := WireguardPart0 + dir + WireguardPart1 + dir + WireguardPart2;
    WireguardBlockUsesDir(dir);
    RenderedFlannelConf(cfg.clusterCIDR, block);
  }

  /** A flannel config built from `%`-free parts holds no substitution marker. */
  lemma PlainConfHasNoMarker(cidr: string, block: string)
    requires '%' !in cidr && '%' !in block
    ensures var text := FlannelConfText(cidr, block);
            !Contains(text, ConfDirMarker) && !Contains(text, CidrMarker) && !Contains(text, BackendMarker)
  {
    MarkersStartWithPercent();
    FlannelConfPiecesPlain();
    PlainConcat5(FlannelConfHead, cidr, FlannelConfMid, block, FlannelConfTail);
    var text := FlannelConfText(cidr, block);
    NoMatchWithoutLead(text, ConfDirMarker);
    NoMatchWithoutLead(text, CidrMarker);
    NoMatchWithoutLead(text, BackendMarker);
  }

  /** WireGuard: when neither the CIDR nor the directory carries a `%`, the written
      file holds no substitution marker at all. */
  lemma WireguardConfHasNoMarker(cidr: string, dir: string)
    requires '%' !in cidr && '%' !in dir
    ensures var text := FlannelConfText(cidr, WireguardPart0 + dir + WireguardPart1 + dir + WireguardPart2);
            !Contains(text, ConfDirMarker) && !Contains(text, CidrMarker) && !Contains(text, BackendMarker)
  {
    WireguardBlockPlain(dir);
    PlainConfHasNoMarker(cidr, WireguardPart0 + dir + WireguardPart1 + dir + WireguardPart2);
  }

  /** Reconciling twice is the same as once: after a successful run the second run
      changes nothing (when `Lstat` and `Readlink` work on the path). */
  lemma StrongSwanIdempotent(fs: FileSystem, faults: Faults, dataDirEnv: string, dir: string)
    requires dir !in faults.lstat && dir !in faults.readlink
    requires StrongSwanStep(fs, faults, dataDirEnv, dir).err.None?
    ensures var once := StrongSwanStep(fs, faults, dataDirEnv, dir).fs;
            StrongSwanStep(once, faults, dataDirEnv, dir) == Step(once, None)
  {
  }

  /** A missing path, or a link pointing elsewhere, ends up as the right link
      whenever removing and linking work. */
  lemma StrongSwanRelinks(fs: FileSystem, faults: Faults, dataDirEnv: string, dir: string)
    requires dir !in faults.remove && dir !in faults.symlink
    requires dir !in fs || (fs[dir].Symlink? && fs[dir].target != StrongSwanTarget(dataDirEnv))
    ensures StrongSwanStep(fs, faults, dataDirEnv, dir)
         == Step(fs[dir := Symlink(StrongSwanTarget(dataDirEnv))], None)
  {
    var t := StrongSwanTarget(dataDirEnv);
    if dir in fs {
      assert (fs - {dir})[dir := Symlink(t)] == fs[dir := Symlink(t)];
    }
  }

  /** When `Lstat` fails, or `Readlink` fails on a link, the entry is removed and
      relinked whatever it was, a directory or file included, as long as removing
      and linking work. */
  lemma StrongSwanRelinksAfterFailedInspection(fs: FileSystem, faults: Faults, dataDirEnv: string, dir: string)
    requires dir in faults.lstat || (dir in fs && fs[dir].Symlink? && dir in faults.readlink)
    requires dir !in faults.remove && dir !in faults.symlink
    ensures StrongSwanStep(fs, faults, dataDirEnv, dir)
         == Step(fs[dir := Symlink(StrongSwanTarget(dataDirEnv))], None)
  {
    var t := StrongSwanTarget(dataDirEnv);
    if dir in fs {
      assert (fs - {dir})[dir := Symlink(t)] == fs[dir := Symlink(t)];
    }
  }

  // ---------------------------------------------------------------------------
  // Waiting for the pod CIDR

  /** True of the events the wait loop reads past: node objects without a pod CIDR. */
  predicate Unassigned(e: Event)
  {
    e.NodeEvent? && e.podCIDR == ""
  }

  /** Index of the event at which the wait loop leaves: the first that is not a node
      object without a pod CIDR, or the length when there is none. */
  function StopIndex(events: seq<Event>): (k: nat)
    ensures k <= |events|
    ensures forall i :: 0 <= i < k ==> Unassigned(events[i])
    ensures k < |events| ==> !Unassigned(events[k])
  {
    if events == [] || !Unassigned(events[0]) then 0 else 1 + StopIndex(events[1..])
  }

  /** How many events the loop receives from the watch. */
  function Received(events: seq<Event>): (n: nat)
    ensures StopIndex(events) <= n <= |events|
    // one event past the unassigned ones is read, unless the stream ends first
    ensures n == StopIndex(events) <==> StopIndex(events) == |events|
  {
    var k := StopIndex(events);
    if k < |events| then k + 1 else k
  }

  /** What `waitForPodCIDR` returns for an opened watch. */
  function WaitError(events: seq<Event>): Option<Error>
  {
    var k := StopIndex(events);
    if k < |events| && events[k].OtherObject? then Some(NotANode(events[k])) else None
  }

  /** What `waitForPodCIDR` returns, the opening of the watch included. */
  function WaitResult(watch: Result<seq<Event>, Error>): Option<Error>
  {
    match watch
    case Err(e) => Some(e)
    case Ok(events) => WaitError(events)
  }

  /** The wait fails exactly when some event that is not a node comes before any
      node with a pod CIDR. */
  lemma WaitFailsIffOtherObjectFirst(events: seq<Event>)
    ensures WaitError(events).Some? <==>
            exists i :: 0 <= i < |events| && events[i].OtherObject?
                        && forall j :: 0 <= j < i ==> Unassigned(events[j])
    ensures WaitError(events).Some? ==> WaitError(events).value.NotANode?
  {
    var k := StopIndex(events);
    if WaitError(events).Some? {
      assert 0 <= k < |events| && events[k].OtherObject?;
    }
    if exists i :: 0 <= i < |events| && events[i].OtherObject? && forall j :: 0 <= j < i ==> Unassigned(events[j]) {
      var i :| 0 <= i < |events| && events[i].OtherObject? && forall j :: 0 <= j < i ==> Unassigned(events[j]);
      assert k == i;
    }
  }

  /** Events after the first assigned node are never read, whatever they are. */
  lemma {:induction false} WaitStopsAtAssignedNode(pending: seq<Event>, cidr: string, later: seq<Event>)
    requires forall i :: 0 <= i < |pending| ==> Unassigned(pending[i])
    requires cidr != ""
    ensures var events := pending + [NodeEvent(cidr)] + later;
            StopIndex(events) == |pending| && Received(events) == |pending| + 1 && WaitError(events) == None
  {
    var events := pending + [NodeEvent(cidr)] + later;
    if pending != [] {
      WaitStopsAtAssignedNode(pending[1..], cidr, later);
      assert events[1..] == pending[1..] + [NodeEvent(cidr)] + later;
    }
  }

  /** An object that is not a node fails the wait at once; later events are not read. */
  lemma {:induction false} WaitFailsAtOtherObject(pending: seq<Event>, other: string, later: seq<Event>)
    requires forall i :: 0 <= i < |pending| ==> Unassigned(pending[i])
    ensures var events := pending + [OtherObject(other)] + later;
            Received(events) == |pending| + 1 && WaitError(events) == Some(NotANode(OtherObject(other)))
  {
    var events := pending + [OtherObject(other)] + later;
    if pending != [] {
      WaitFailsAtOtherObject(pending[1..], other, later);
      assert events[1..] == pending[1..] + [OtherObject(other)] + later;
    }
  }

  /** A stream that ends before any node has a pod CIDR ends the wait without error. */
  lemma WaitSucceedsWhenStreamEnds(events: seq<Event>)
    requires forall i :: 0 <= i < |events| ==> Unassigned(events[i])
    ensures Received(events) == |events| && WaitError(events) == None
  {
  }

  // ---------------------------------------------------------------------------
  // The agent

  /** The node as the setup code changes it: its files, the watch it opens, and
      whether the flannel backend has been started. */
  class Agent {
    var fs: FileSystem
    const faults: Faults
    /** Watches opened on the node object, and watches stopped again. */
    var watchesOpened: nat
    var watchesStopped: nat
    /** Events received from the last watch opened. */
    var received: nat
    /** Whether `Run` has launched the flannel backend. */
    var flannelStarted: bool

    constructor (fs0: FileSystem, faults0: Faults)
      ensures fs == fs0 && faults == faults0
      ensures watchesOpened == 0 && watchesStopped == 0 && received == 0 && !flannelStarted
    {
      fs := fs0;
      faults := faults0;
      watchesOpened, watchesStopped := 0, 0;
      received := 0;
      flannelStarted := false;
    }

    method Remove(p: string) returns (err: Option<Error>)
      modifies this`fs
      ensures Step(fs, err) == RemoveStep(old(fs), faults, p)
    {
      var r := RemoveStep(fs, faults, p);
      fs, err := r.fs, r.err;
    }

    method MakeSymlink(target: string, p: string) returns (err: Option<Error>)
      modifies this`fs
      ensures Step(fs, err) == SymlinkStep(old(fs), faults, target, p)
    {
      var r := SymlinkStep(fs, faults, target, p);
      fs, err := r.fs, r.err;
    }

    method WriteFile(p: string, content: string) returns (err: Option<Error>)
      modifies this`fs
      ensures Step(fs, err) == WriteStep(old(fs), faults, p, content)
    {
      var r := WriteStep(fs, faults, p, content);
      fs, err := r.fs, r.err;
    }

    method CreateCNIConf(dir: string) returns (err: Option<Error>)
      modifies this`fs
      ensures Step(fs, err) == CniConfStep(old(fs), faults, dir)
    {
      if dir == "" {
        return None;
      }
      var p := FilePath.Join(dir, CniConfFileName);
      err := WriteFile(p, CniConf);
    }

    method SetupStrongSwan(dataDirEnv: string, dir: string) returns (err: Option<Error>)
      modifies this`fs
      ensures Step(fs, err) == StrongSwanStep(old(fs), faults, dataDirEnv, dir)
    {
      var dataDir := dataDirEnv;
      if dataDir == "" {
        dataDir := "/";
      }
      dataDir := FilePath.Join(FilePath.Join(dataDir, "etc"), "strongswan");

      var info := Lstat(fs, faults, dir);
      if info.Ok? && !info.value.Symlink? {
        return None;
      }
      if info.Ok? {
        var target := Readlink(fs, faults, dir);
        if target.Ok? && target.value == dataDir {
          return None;
        }
      }
      var _ := Remove(dir);
      err := MakeSymlink(dataDir, dir);
    }

    method CreateFlannelConf(cfg: NodeConfig, dataDirEnv: string) returns (err: Option<Error>)
      modifies this`fs
      ensures Step(fs, err) == FlannelConfStep(old(fs), faults, cfg, dataDirEnv)
    {
      if cfg.flannelConf == "" {
        return None;
      }
      if cfg.flannelConfOverride {
        return None;
      }
      var confJSON := ReplaceAll(FlannelConfTemplate, CidrMarker, cfg.clusterCIDR);
      var backendConf: string;
      if cfg.flannelBackend == BackendVXLAN {
        backendConf := VxlanBackend;
      } else if cfg.flannelBackend == BackendHostGW {
        backendConf := HostGWBackend;
      } else if cfg.flannelBackend == BackendIPSEC {
        backendConf := ReplaceAll(IpsecBackendTemplate, PskMarker, cfg.ipsecPSK);
        err := SetupStrongSwan(dataDirEnv, cfg.strongSwanDir);
        if err.Some? {
          return;
        }
      } else if cfg.flannelBackend == BackendWireguard {
        backendConf := ReplaceAll(WireguardBackendTemplate, ConfDirMarker, FilePath.Dir(cfg.flannelConf));
      } else {
        return Some(UnknownBackend(cfg.flannelBackend));
      }
      confJSON := ReplaceAll(confJSON, BackendMarker, backendConf);
      err := WriteFile(cfg.flannelConf, confJSON);
    }

    method Prepare(cfg: NodeConfig, dataDirEnv: string) returns (err: Option<Error>)
      modifies this`fs
      ensures Step(fs, err) == PrepareStep(old(fs), faults, cfg, dataDirEnv)
    {
      err := CreateCNIConf(cfg.cniConfDir);
      if err.Some? {
        return;
      }
      err := CreateFlannelConf(cfg, dataDirEnv);
    }

    /** `waitForPodCIDR` (lines 98-117). `watch` is what opening the watch gave: its
        error, or the events it delivers before its channel closes. */
    method WaitForPodCIDR(nodeName: string, watch: Result<seq<Event>, Error>) returns (err: Option<Error>)
      modifies this`watchesOpened, this`watchesStopped, this`received
      ensures err == WaitResult(watch)
      // a watch that fails to open is not stopped (the deferred stop comes after it)
      ensures watch.Err? ==> watchesOpened == old(watchesOpened) && watchesStopped == old(watchesStopped)
                             && received == old(received)
      // an opened watch is stopped on every return
      ensures watch.Ok? ==> watchesOpened == old(watchesOpened) + 1 && watchesStopped == old(watchesStopped) + 1
                            && received == Received(watch.value)
    {
      if watch.Err? {
        return Some(watch.error);
      }
      var events := watch.value;
      watchesOpened, received := watchesOpened + 1, 0;

      var i := 0;
      while i < |events|
        invariant 0 <= i <= StopIndex(events)
        invariant received == i
        invariant watchesOpened == old(watchesOpened) + 1 && watchesStopped == old(watchesStopped)
      {
        var ev := events[i];
        i, received := i + 1, received + 1;
        if ev.OtherObject? {
          watchesStopped := watchesStopped + 1;
          return Some(NotANode(ev));
        }
        if ev.podCIDR != "" {
          break;
        }
      }
      watchesStopped := watchesStopped + 1;
      return None;
    }

    /** The synchronous part of `Run` (lines 82-95): wait for the pod CIDR, then
        launch the backend. */
    method Run(cfg: NodeConfig, watch: Result<seq<Event>, Error>) returns (err: Option<Error>)
      modifies this`watchesOpened, this`watchesStopped, this`received, this`flannelStarted
      ensures WaitResult(watch).Some? ==>
                err == Some(Wrapped(WaitFailedMessage, WaitResult(watch).value))
                && flannelStarted == old(flannelStarted)
      ensures WaitResult(watch).None? ==> err == None && flannelStarted
      ensures watch.Err? ==> watchesOpened == old(watchesOpened) && watchesStopped == old(watchesStopped)
                             && received == old(received)
      ensures watch.Ok? ==> watchesOpened == old(watchesOpened) + 1 && watchesStopped == old(watchesStopped) + 1
                            && received == Received(watch.value)
    {
      var waitErr := WaitForPodCIDR(cfg.nodeName, watch);
      if waitErr.Some? {
        return Some(Wrapped(WaitFailedMessage, waitErr.value));
      }
      flannelStarted := true;
      return None;
    }
  }
}

=== FILE: paths.dfy ===
/** The two `path/filepath` helpers the setup code uses, for slash-separated paths.
    Lexical cleaning of `.` and `..` elements is not modelled. */
module FilePath {

  /** Index of the last `/` in `p`, or -1 when there is none. */
  function LastSlash(p: string): (i: int)
    ensures -1 <= i < |p|
    ensures i >= 0 ==> p[i] == '/'
    ensures forall j :: i < j < |p| ==> p[j] != '/'
  {
    if p == [] then -1
    else if p[|p| - 1] == '/' then |p| - 1
    else LastSlash(p[..|p| - 1])
  }

  /** Drops trailing slashes, but keeps a lone root `/`. */
  function TrimTrailingSlashes(p: string): (r: string)
    ensures |r| <= |p| && r == p[..|r|]
    ensures p != [] ==> r != []
    ensures |r| > 1 ==> r[|r| - 1] != '/'
  {
    if |p| > 1 && p[|p| - 1] == '/' then TrimTrailingSlashes(p[..|p| - 1]) else p
  }

  /** `filepath.Join(dir, name)`: empty elements are skipped and exactly one
      separator is put between the two. */
  function Join(dir: string, name: string): (r: string)
    // the directory comes first and the name last, joined by one separator at most
    ensures |dir| + |name| <= |r| <= |dir| + |name| + 1
    ensures r[..|dir|] == dir && r[|r| - |name|..] == name
    ensures |r| == |dir| + |name| + 1 ==> r[|dir|] == '/'
  {
    if dir == [] then name
    else if name == [] then dir
    else if dir[|dir| - 1] == '/' then dir + name
    else dir + "/" + name
  }

  /** `filepath.Dir(p)`: everything before the last separator, without trailing
      slashes; "." when `p` has no separator. */
  function Dir(p: string): string
  {
    var i := LastSlash(p);
    if i < 0 then "." else TrimTrailingSlashes(p[..i + 1])
  }

  /** `Dir` undoes `Join`: the directory of a file joined onto a directory is that
      directory. */
  lemma DirOfJoin(dir: string, name: string)
    requires dir != [] && (dir == "/" || dir[|dir| - 1] != '/')
    requires name != [] && '/' !in name
    ensures Dir(Join(dir, name)) == dir
  {
    var p := Join(dir, name);
    var k := |dir| + (if dir == "/" then 0 else 1);
    assert p == p[..k] + name;
    assert p[k - 1] == '/';
    forall j | k <= j < |p| ensures p[j] != '/' {
      assert p[j] == name[j - k];
    }
    assert LastSlash(p) == k - 1;
    if dir != "/" {
      assert p[..k] == dir + "/";
      assert TrimTrailingSlashes(dir + "/") == TrimTrailingSlashes(dir);
    }
  }
}

=== FILE: strings.dfy ===
/** Go's `strings.ReplaceAll`, the one text primitive the configuration generator uses.
    A `char` stands for one rune of the Go string. */
module GoStrings {

  /** `pat` starts at index `i` of `s`. */
  predicate OccursAt(s: string, pat: string, i: int)
  {
    0 <= i && i + |pat| <= |s| && s[i..i + |pat|] == pat
  }

  /** `pat` occurs somewhere in `s` (Go's `strings.Contains`). */
  predicate Contains(s: string, pat: string)
  {
    exists i :: 0 <= i <= |s| && OccursAt(s, pat, i)
  }

  /** With an empty pattern Go matches at the start of the string and after every
      rune, so `rep` is put around and between all runes. */
  function Interleave(s: string, rep: string): (r: string)
    ensures |r| == |s| + (|s| + 1) * |rep|
  {
    if s == [] then rep else rep + [s[0]] + Interleave(s[1..], rep)
  }

  /** `strings.ReplaceAll(s, pat, rep)`: non-overlapping matches of `pat`, scanned
      left to right; the scan resumes after each match, so `rep` is never rescanned. */
  function ReplaceAll(s: string, pat: string, rep: string): string
    decreases |s|
  {
    if pat == [] then Interleave(s, rep)
    else if |s| < |pat| then s
    else if s[..|pat|] == pat then rep + ReplaceAll(s[|pat|..], pat, rep)
    else [s[0]] + ReplaceAll(s[1..], pat, rep)
  }

  /** Text shorter than the pattern holds no match and comes back unchanged. */
  lemma ReplaceShort(s: string, pat: string, rep: string)
    requires pat != [] && |s| < |pat|
    ensures ReplaceAll(s, pat, rep) == s
  {
  }

  /** A match in the rest of `s` is a match in `s`, one position later. */
  lemma OccursInTail(s: string, pat: string, i: nat)
    requires s != []
    ensures OccursAt(s[1..], pat, i) <==> OccursAt(s, pat, i + 1)
  {
    if i + |pat| <= |s| - 1 {
      assert s[1..][i..i + |pat|] == s[i + 1..i + 1 + |pat|];
    }
  }

  /** Where no match starts at the front, the first rune is copied and the scan
      moves on by one. */
  lemma ReplaceUnmatchedHead(s: string, pat: string, rep: string)
    requires pat != [] && |pat| <= |s| && !OccursAt(s, pat, 0)
    ensures ReplaceAll(s, pat, rep) == [s[0]] + ReplaceAll(s[1..], pat, rep)
  {
    assert s[0..|pat|] == s[..|pat|];
  }

  /** Where a match starts at the front, it is replaced and the scan resumes
      after it. */
  lemma ReplaceMatchedHead(s: string, pat: string, rep: string)
    requires pat != [] && OccursAt(s, pat, 0)
    ensures ReplaceAll(s, pat, rep) == rep + ReplaceAll(s[|pat|..], pat, rep)
  {
    assert s[0..|pat|] == s[..|pat|];
  }

  /** Slicing facts for moving a prefix boundary past the first rune. */
  lemma PrefixAfterHead(s: string, k: nat, x: string)
    requires 0 < k <= |s|
    ensures s[1..][k - 1..] == s[k..]
    ensures [s[0]] + (s[1..][..k - 1] + x) == s[..k] + x
  {
    assert [s[0]] + s[1..][..k - 1] == s[..k];
  }

  /** The two halves of a concatenation, recovered by slicing. */
  lemma SplitAt(a: string, b: string)
    ensures (a + b)[..|a|] == a && (a + b)[|a|..] == b
  {
  }

  /** Regrouping a concatenation of three. */
  lemma Regroup3(a: string, b: string, c: string)
    ensures a + b + c == a + (b + c)
  {
  }

  /** A prefix in which no match starts is copied unchanged. */
  lemma {:induction false} ReplaceCopiesUnmatchedPrefix(s: string, pat: string, rep: string, k: nat)
    requires pat != []
    requires k <= |s|
    requires forall i :: 0 <= i < k ==> !OccursAt(s, pat, i)
    ensures ReplaceAll(s, pat, rep) == s[..k] + ReplaceAll(s[k..], pat, rep)
  {
    if k == 0 {
      assert s[..0] == [] && s[0..] == s;
    } else if |s| < |pat| {
      ReplaceShort(s, pat, rep);
      ReplaceShort(s[k..], pat, rep);
      assert s[..k] + s[k..] == s;
    } else {
      var t := s[1..];
      forall i | 0 <= i < k - 1
        ensures !OccursAt(t, pat, i)
      {
        OccursInTail(s, pat, i);
      }
      ReplaceCopiesUnmatchedPrefix(t, pat, rep, k - 1);
      ReplaceUnmatchedHead(s, pat, rep);
      PrefixAfterHead(s, k, ReplaceAll(s[k..], pat, rep));
    }
  }

  /** Text with no match at all comes back unchanged ("the marker does not occur"). */
  lemma ReplaceAbsent(s: string, pat: string, rep: string)
    requires pat != []
    requires forall i :: 0 <= i <= |s| ==> !OccursAt(s, pat, i)
    ensures ReplaceAll(s, pat, rep) == s
  {
    ReplaceCopiesUnmatchedPrefix(s, pat, rep, |s|);
    assert s[..|s|] == s && s[|s|..] == [];
    ReplaceShort(s[|s|..], pat, rep);
  }

  /** A prefix in which no match starts is copied, and the scan of the text after
      it is unaffected. */
  lemma ReplaceSkipsUnmatched(a: string, t: string, pat: string, rep: string)
    requires pat != []
    requires forall i :: 0 <= i < |a| ==> !OccursAt(a + t, pat, i)
    ensures ReplaceAll(a + t, pat, rep) == a + ReplaceAll(t, pat, rep)
  {
    ReplaceCopiesUnmatchedPrefix(a + t, pat, rep, |a|);
    SplitAt(a, t);
  }

  /** The first match is replaced and scanning resumes right after it: the inserted
      `rep` is not looked at again, whatever it contains. */
  lemma ReplaceFirstMatch(a: string, b: string, pat: string, rep: string)
    requires pat != []
    requires forall i :: 0 <= i < |a| ==> !OccursAt(a + pat + b, pat, i)
    ensures ReplaceAll(a + pat + b, pat, rep) == a + rep + ReplaceAll(b, pat, rep)
  {
    Regroup3(a, pat, b);
    ReplaceSkipsUnmatched(a, pat + b, pat, rep);
    SplitAt(pat, b);
    ReplaceMatchedHead(pat + b, pat, rep);
    Regroup3(a, rep, ReplaceAll(b, pat, rep));
  }

  /** A marker that occurs exactly once is replaced by `rep`, verbatim, and nothing
      else changes. */
  lemma ReplaceOnce(a: string, b: string, pat: string, rep: string)
    requires pat != []
    requires forall i :: 0 <= i <= |a + pat + b| && i != |a| ==> !OccursAt(a + pat + b, pat, i)
    ensures ReplaceAll(a + pat + b, pat, rep) == a + rep + b
  {
    ReplaceFirstMatch(a, b, pat, rep);
    AbsentAfterOnly(a, b, pat);
    ReplaceAbsent(b, pat, rep);
  }

  /** A text's suffix holds no match where the text holds none. */
  lemma AbsentAfterOnly(a: string, b: string, pat: string)
    requires pat != []
    requires forall i :: 0 <= i <= |a + pat + b| && i != |a| ==> !OccursAt(a + pat + b, pat, i)
    ensures forall j :: 0 <= j <= |b| ==> !OccursAt(b, pat, j)
  {
    var s := a + pat + b;
    forall j | 0 <= j <= |b|
      ensures !OccursAt(b, pat, j)
    {
      var i := |a| + |pat| + j;
      assert !OccursAt(s, pat, i);
      if j + |pat| <= |b| {
        assert s[i..i + |pat|] == b[j..j + |pat|];
      }
    }
  }

  /** No match can start inside text that lacks the pattern's first character. */
  lemma NoMatchWithoutLead(s: string, pat: string)
    requires pat != [] && pat[0] !in s
    ensures !Contains(s, pat)
  {
    forall i | 0 <= i <= |s|
      ensures !OccursAt(s, pat, i)
    {
      if i + |pat| <= |s| {
        assert s[i..i + |pat|][0] == s[i];
      }
    }
  }

  /** No match starts inside a prefix that lacks the pattern's first character. */
  lemma NoMatchInLeadFreePrefix(a: string, t: string, pat: string)
    requires pat != [] && pat[0] !in a
    ensures forall i :: 0 <= i < |a| ==> !OccursAt(a + t, pat, i)
  {
    var s := a + t;
    forall i | 0 <= i < |a|
      ensures !OccursAt(s, pat, i)
    {
      if i + |pat| <= |s| {
        assert s[i..i + |pat|][0] == s[i] == a[i];
      }
    }
  }

  /** Text that lacks the pattern's first character is copied unchanged, and the
      scan of what follows it is unaffected. */
  lemma ReplaceSkipsLeadFree(a: string, t: string, pat: string, rep: string)
    requires pat != [] && pat[0] !in a
    ensures ReplaceAll(a + t, pat, rep) == a + ReplaceAll(t, pat, rep)
  {
    NoMatchInLeadFreePrefix(a, t, pat);
    ReplaceSkipsUnmatched(a, t, pat, rep);
  }

  /** Text that lacks the pattern's first character comes back unchanged. */
  lemma ReplaceLeadFree(s: string, pat: string, rep: string)
    requires pat != [] && pat[0] !in s
    ensures ReplaceAll(s, pat, rep) == s
  {
    NoMatchWithoutLead(s, pat);
    ReplaceAbsent(s, pat, rep);
  }
}

=== FILE: templates.dfy ===
/** The fixed configuration texts of pkg/agent/flannel/setup.go (lines 21-72), the
    backend-block selection of `createFlannelConf`, and what the substituted text is. */
module Templates {
  import opened GoStrings
  import opened Wrappers
  import FilePath

  // Substitution markers.
  const CidrMarker := "%CIDR%"
  const BackendMarker := "%backend%"
  const PskMarker := "%psk%"
  const ConfDirMarker := "%flannelConfDir%"

  // Backend kinds accepted by the switch (the config.FlannelBackend* names).
  const BackendVXLAN := "vxlan"
  const BackendHostGW := "host-gw"
  const BackendIPSEC := "ipsec"
  const BackendWireguard := "wireguard"

  /** File name of the CNI network configuration inside the CNI config directory. */
  const CniConfFileName := "10-flannel.conflist"

  /** `cniConf`: the CNI conflist, written as is. */
  const CniConf :=
    "{\n" +
    "  \"name\":\"cbr0\",\n" +
    "  \"cniVersion\":\"0.3.1\",\n" +
    "  \"plugins\":[\n" +
    "    {\n" +
    "      \"type\":\"flannel\",\n" +
    "      \"delegate\":{\n" +
    "        \"hairpinMode\":true,\n" +
    "        \"forceAddress\":true,\n" +
    "        \"isDefaultGateway\":true\n" +
    "      }\n" +
    "    },\n" +
    "    {\n" +
    "      \"type\":\"portmap\",\n" +
    "      \"capabilities\":{\n" +
    "        \"portMappings\":true\n" +
    "      }\n" +
    "    }\n" +
    "  ]\n" +
    "}\n"

  // The fixed texts are assembled from short named pieces, so that each piece can
  // be seen to carry no `%` on its own.

  /** `flannelConf`, cut at its two markers. */
  const FlannelConfHead := "{\n\t\"Network\": \""
  const FlannelConfMid := "\",\n\t\"Backend\": "
  const FlannelConfTail := "\n}\n"
  const FlannelConfTemplate := FlannelConfHead + CidrMarker + FlannelConfMid + BackendMarker + FlannelConfTail

  const VxlanBackend := "{\n\t\"Type\": \"vxlan\"\n}"
  const HostGWBackend := "{\n\t\"Type\": \"host-gw\"\n}"

  /** `ipsecBackend`, cut at its marker. */
  const IpsecTypeLine := "{\n\t\"Type\": \"ipsec\",\n"
  const IpsecEncapLine := "\t\"UDPEncap\": true,\n"
  const IpsecPskKey := "\t\"PSK\": \""
  const IpsecHead := IpsecTypeLine + IpsecEncapLine + IpsecPskKey
  const IpsecTail := "\"\n}"
  const IpsecBackendTemplate := IpsecHead + PskMarker + IpsecTail

  // Pieces of `wireguardBackend`: the JSON keys and the shell words of its commands.
  const WgTypeLine := "{\n\t\"Type\": \"extension\",\n"
  const WgPreStartupKey := "\t\"PreStartupCommand\": \""
  const WgPostStartupKey := "\t\"PostStartupCommand\": \""
  const WgShutdownKey := "\t\"ShutdownCommand\": \""
  const WgSubnetAddKey := "\t\"SubnetAddCommand\": \""
  const WgSubnetRemoveKey := "\t\"SubnetRemoveCommand\": \""
  const WgFieldEnd := "\",\n"
  const WgGenKey := "wg genkey | tee "
  const WgPubKey := "/privatekey | wg pubkey"
  const WgExportIP := "export SUBNET_IP=$(echo "
  const WgCutIP := "$SUBNET | cut -d'/' -f 1); "
  const WgDelLink := "ip link del flannel.1"
  const WgQuiet := " 2>/dev/null; "
  const WgEchoPath := "echo $PATH >&2; "
  const WgAddLink := "wg-add.sh flannel.1 && "
  const WgSetLink := "wg set flannel.1 "
  const WgListenPort := "listen-port 51820 "
  const WgPrivateKey := "private-key "
  const WgKeyFileThen := "/privatekey && "
  const WgAddrAdd := "ip addr add $SUBNET_IP/32 "
  const WgDev := "dev flannel.1"
  const WgThen := " && "
  const WgLinkUp := "ip link set flannel.1 up"
  const WgRouteAdd := "ip route add $NETWORK "
  const WgReadKey := "read PUBLICKEY; "
  const WgPeer := "peer $PUBLICKEY "
  const WgEndpoint := "endpoint $PUBLIC_IP:51820 "
  const WgAllowedIPs := "allowed-ips $SUBNET "
  const WgKeepalive := "persistent-keepalive 25"
  const WgRemove := "remove\"\n}"

  /** `wireguardBackend`, cut at its two markers. */
  const WireguardPart0 := WgTypeLine + WgPreStartupKey + WgGenKey
  const WireguardPart1 := WgPubKey + WgFieldEnd + WgPostStartupKey + WgPostStartupHead
  const WgPostStartupHead :=
    WgExportIP + WgCutIP + WgDelLink + WgQuiet + WgEchoPath + WgAddLink + WgSetLink + WgListenPort + WgPrivateKey
  const WireguardPart2 := WgPostStartupTail + WgShutdown + WgSubnetAdd + WgSubnetRemove
  const WgPostStartupTail :=
    WgKeyFileThen + WgAddrAdd + WgDev + WgThen + WgLinkUp + WgThen + WgRouteAdd + WgDev + WgFieldEnd
  const WgShutdown := WgShutdownKey + WgDelLink + WgFieldEnd
  const WgSubnetAdd :=
    WgSubnetAddKey + WgReadKey + WgSetLink + WgPeer + WgEndpoint + WgAllowedIPs + WgKeepalive + WgFieldEnd
  const WgSubnetRemove := WgSubnetRemoveKey + WgReadKey + WgSetLink + WgPeer + WgRemove
  const WireguardBackendTemplate :=
    WireguardPart0 + ConfDirMarker + WireguardPart1 + ConfDirMarker + WireguardPart2

  /** The four backend names are pairwise distinct, so the switch picks one case. */
  lemma BackendNamesDiffer()
    ensures BackendVXLAN != BackendHostGW && BackendVXLAN != BackendIPSEC && BackendVXLAN != BackendWireguard
    ensures BackendHostGW != BackendIPSEC && BackendHostGW != BackendWireguard
    ensures BackendIPSEC != BackendWireguard
  {
    assert |BackendVXLAN| == 5 && |BackendHostGW| == 7 && |BackendIPSEC| == 5 && |BackendWireguard| == 9;
    assert BackendVXLAN[0] != BackendIPSEC[0];
  }

  /** The backend kinds the switch knows. */
  predicate KnownBackend(backend: string)
  {
    backend == BackendVXLAN || backend == BackendHostGW
    || backend == BackendIPSEC || backend == BackendWireguard
  }

  /** The backend block the switch picks, before it is put into `flannelConf`;
      `None` for an unknown kind. `confPath` is the flannel config file path. */
  function BackendBlock(backend: string, psk: string, confPath: string): (r: Option<string>)
    ensures r.Some? <==> KnownBackend(backend)
  {
    if backend == BackendVXLAN then Some(VxlanBackend)
    else if backend == BackendHostGW then Some(HostGWBackend)
    else if backend == BackendIPSEC then Some(ReplaceAll(IpsecBackendTemplate, PskMarker, psk))
    else if backend == BackendWireguard then
      Some(ReplaceAll(WireguardBackendTemplate, ConfDirMarker, FilePath.Dir(confPath)))
    else None
  }

  /** The two substitutions into `flannelConf`, in the source's order: the cluster
      CIDR first, then the backend block. */
  function RenderFlannelConf(cidr: string, block: string): string
  {
    ReplaceAll(ReplaceAll(FlannelConfTemplate, CidrMarker, cidr), BackendMarker, block)
  }

  // ---------------------------------------------------------------------------
  // What the substitutions produce

  /** Regrouping the five parts of a text cut at two markers. */
  lemma Regroup5(a: string, b: string, c: string, d: string, e: string)
    ensures a + b + c + d + e == a + b + (c + d + e)
  {
  }

  /** Every marker starts with `%`. */
  lemma MarkersStartWithPercent()
    ensures CidrMarker != [] && CidrMarker[0] == '%'
    ensures BackendMarker != [] && BackendMarker[0] == '%'
    ensures PskMarker != [] && PskMarker[0] == '%'
    ensures ConfDirMarker != [] && ConfDirMarker[0] == '%'
  {
  }

  /** Five texts without `%` joined: still no `%`. */
  lemma PlainConcat5(a: string, b: string, c: string, d: string, e: string)
    requires '%' !in a && '%' !in b && '%' !in c && '%' !in d && '%' !in e
    ensures '%' !in a + b + c + d + e
  {
  }

  /** A one-marker text whose fixed pieces carry no `%`: the marker is replaced by
      `rep` verbatim and nothing else changes. */
  lemma ReplaceSingleMarker(head: string, tail: string, marker: string, rep: string)
    requires marker != [] && marker[0] == '%'
    requires '%' !in head && '%' !in tail
    ensures ReplaceAll(head + marker + tail, marker, rep) == head + rep + tail
  {
    Regroup3(head, marker, tail);
    NoMatchInLeadFreePrefix(head, marker + tail, marker);
    ReplaceFirstMatch(head, tail, marker, rep);
    ReplaceLeadFree(tail, marker, rep);
  }

  /** A two-marker text whose fixed pieces carry no `%`: both markers are replaced. */
  lemma ReplaceTwoMarkers(p0: string, p1: string, p2: string, marker: string, rep: string)
    requires marker != [] && marker[0] == '%'
    requires '%' !in p0 && '%' !in p1 && '%' !in p2
    ensures ReplaceAll(p0 + marker + p1 + marker + p2, marker, rep) == p0 + rep + p1 + rep + p2
  {
    var rest := p1 + marker + p2;
    Regroup5(p0, marker, p1, marker, p2);
    Regroup3(p0, marker, rest);
    NoMatchInLeadFreePrefix(p0, marker + rest, marker);
    ReplaceFirstMatch(p0, rest, marker, rep);
    ReplaceSingleMarker(p1, p2, marker, rep);
    Regroup5(p0, rep, p1, rep, p2);
  }

  /** `%CIDR%` does not occur in `%backend%` followed by `%`-free text: the only
      `%` characters are the marker's own two, and they are 8 apart, not 5. */
  lemma NoCidrMarkerAround(tail: string)
    requires '%' !in tail
    ensures forall i :: 0 <= i <= |BackendMarker + tail| ==> !OccursAt(BackendMarker + tail, CidrMarker, i)
  {
    var s := BackendMarker + tail;
    forall i | 0 <= i <= |s|
      ensures !OccursAt(s, CidrMarker, i)
    {
      if i + |CidrMarker| <= |s| {
        var w := s[i..i + |CidrMarker|];
        if i == 0 {
          assert w[1] == 'b';
        } else if i < 8 {
          assert w[0] == BackendMarker[i] != '%';
        } else if i == 8 {
          assert w[5] == tail[4] != '%';
        } else {
          assert w[0] == tail[i - 9] != '%';
        }
      }
    }
  }

  /** The `%CIDR%` pass over a text shaped like `flannelConf`: the CIDR goes in,
      and the `%backend%` marker after it is kept. */
  lemma CidrPass(head: string, mid: string, tail: string, cidr: string)
    requires '%' !in head && '%' !in mid && '%' !in tail
    ensures ReplaceAll(head + CidrMarker + mid + BackendMarker + tail, CidrMarker, cidr)
         == head + cidr + (mid + BackendMarker + tail)
  {
    MarkersStartWithPercent();
    var rest := mid + BackendMarker + tail;
    Regroup5(head, CidrMarker, mid, BackendMarker, tail);
    Regroup3(head, CidrMarker, rest);
    NoMatchInLeadFreePrefix(head, CidrMarker + rest, CidrMarker);
    ReplaceFirstMatch(head, rest, CidrMarker, cidr);
    Regroup3(mid, BackendMarker, tail);
    ReplaceSkipsLeadFree(mid, BackendMarker + tail, CidrMarker, cidr);
    NoCidrMarkerAround(tail);
    ReplaceAbsent(BackendMarker + tail, CidrMarker, cidr);
  }

  /** Substituting `%CIDR%` and then `%backend%` into any text shaped like
      `flannelConf` whose fixed pieces carry no `%`. */
  lemma RenderShape(head: string, mid: string, tail: string, cidr: string, block: string)
    requires '%' !in head && '%' !in mid && '%' !in tail && '%' !in cidr
    ensures ReplaceAll(ReplaceAll(head + CidrMarker + mid + BackendMarker + tail, CidrMarker, cidr),
                       BackendMarker, block)
         == head + cidr + mid + block + tail
  {
    MarkersStartWithPercent();
    CidrPass(head, mid, tail, cidr);
    Regroup5(head, cidr, mid, BackendMarker, tail);
    var lead := head + cidr + mid;
    assert '%' !in lead;
    ReplaceSingleMarker(lead, tail, BackendMarker, block);
  }

  /** The fixed pieces of `flannelConf` hold no `%` besides the markers. */
  lemma FlannelConfPiecesPlain()
    ensures '%' !in FlannelConfHead && '%' !in FlannelConfMid && '%' !in FlannelConfTail
  {
  }

  /** The flannel config text for a backend block and a cluster CIDR. */
  function FlannelConfText(cidr: string, block: string): string
  {
    FlannelConfHead + cidr + FlannelConfMid + block + FlannelConfTail
  }

  /** The written flannel config is the template with the CIDR and the backend block
      in place. The block is inserted last and never rescanned; the CIDR text is
      rescanned by the `%backend%` pass, so it must not carry a `%` (a CIDR never does). */
  lemma RenderedFlannelConf(cidr: string, block: string)
    requires '%' !in cidr
    ensures RenderFlannelConf(cidr, block) == FlannelConfText(cidr, block)
  {
    FlannelConfPiecesPlain();
    RenderShape(FlannelConfHead, FlannelConfMid, FlannelConfTail, cidr, block);
  }

  /** The fixed pieces of `ipsecBackend` hold no `%` besides the marker. */
  lemma IpsecPiecesPlain()
    ensures '%' !in IpsecHead && '%' !in IpsecTail
  {
    assert '%' !in IpsecTypeLine && '%' !in IpsecEncapLine && '%' !in IpsecPskKey;
  }

  /** The IPsec block carries the pre-shared key verbatim, whatever it contains. */
  lemma IpsecBlockEmbedsPsk(psk: string)
    ensures ReplaceAll(IpsecBackendTemplate, PskMarker, psk) == IpsecHead + psk + IpsecTail
  {
    MarkersStartWithPercent();
    IpsecPiecesPlain();
    ReplaceSingleMarker(IpsecHead, IpsecTail, PskMarker, psk);
  }

  // The pieces of `wireguardBackend`, a few at a time.

  lemma WgKeysPlain()
    ensures '%' !in WgTypeLine && '%' !in WgPreStartupKey && '%' !in WgPostStartupKey
  {
  }

  lemma WgMoreKeysPlain()
    ensures '%' !in WgShutdownKey && '%' !in WgSubnetAddKey && '%' !in WgSubnetRemoveKey
  {
  }

  lemma WgKeyCommandsPlain()
    ensures '%' !in WgFieldEnd && '%' !in WgGenKey && '%' !in WgPubKey
  {
  }

  lemma WgSetupWordsPlain()
    ensures '%' !in WgExportIP && '%' !in WgCutIP && '%' !in WgDelLink
  {
  }

  lemma WgShellWordsPlain()
    ensures '%' !in WgQuiet && '%' !in WgEchoPath && '%' !in WgAddLink
  {
  }

  lemma WgListenWordsPlain()
    ensures '%' !in WgSetLink && '%' !in WgListenPort && '%' !in WgPrivateKey
  {
  }

  lemma WgAddressWordsPlain()
    ensures '%' !in WgKeyFileThen && '%' !in WgAddrAdd && '%' !in WgDev
  {
  }

  lemma WgRouteWordsPlain()
    ensures '%' !in WgThen && '%' !in WgLinkUp && '%' !in WgRouteAdd
  {
  }

  lemma WgPeerWordsPlain()
    ensures '%' !in WgReadKey && '%' !in WgPeer && '%' !in WgEndpoint
  {
  }

  lemma WgPeerEndWordsPlain()
    ensures '%' !in WgAllowedIPs && '%' !in WgKeepalive && '%' !in WgRemove
  {
  }

  /** The fixed pieces of the WireGuard block hold no `%` besides the markers. */
  lemma WireguardPiecesLackPercent()
    ensures '%' !in WireguardPart0 && '%' !in WireguardPart1 && '%' !in WireguardPart2
  {
    WgKeysPlain();
    WgMoreKeysPlain();
    WgKeyCommandsPlain();
    WgSetupWordsPlain();
    WgShellWordsPlain();
    WgListenWordsPlain();
    WgAddressWordsPlain();
    WgRouteWordsPlain();
    WgPeerWordsPlain();
    WgPeerEndWordsPlain();
    assert '%' !in WgPostStartupHead;
    assert '%' !in WgPostStartupTail;
    assert '%' !in WgShutdown && '%' !in WgSubnetAdd && '%' !in WgSubnetRemove;
  }

  /** Both `%flannelConfDir%` markers of the WireGuard block become `dir`. */
  lemma WireguardBlockUsesDir(dir: string)
    ensures ReplaceAll(WireguardBackendTemplate, ConfDirMarker, dir)
         == WireguardPart0 + dir + WireguardPart1 + dir + WireguardPart2
  {
    MarkersStartWithPercent();
    WireguardPiecesLackPercent();
    ReplaceTwoMarkers(WireguardPart0, WireguardPart1, WireguardPart2, ConfDirMarker, dir);
  }

  /** With a directory free of `%`, the WireGuard block holds no `%` at all. */
  lemma WireguardBlockPlain(dir: string)
    requires '%' !in dir
    ensures '%' !in WireguardPart0 + dir + WireguardPart1 + dir + WireguardPart2
  {
    WireguardPiecesLackPercent();
    PlainConcat5(WireguardPart0, dir, WireguardPart1, dir, WireguardPart2);
  }

  /** When the directory has no `%`, no marker text is left in the WireGuard block. */
  lemma WireguardBlockHasNoMarker(dir: string)
    requires '%' !in dir
    ensures !Contains(ReplaceAll(WireguardBackendTemplate, ConfDirMarker, dir), ConfDirMarker)
  {
    WireguardBlockUsesDir(dir);
    WireguardBlockPlain(dir);
    MarkersStartWithPercent();
    NoMatchWithoutLead(WireguardPart0 + dir + WireguardPart1 + dir + WireguardPart2, ConfDirMarker);
  }
}

=== FILE: wrappers.dfy ===
/** Go's `(value, error)` and `error` results. */
module Wrappers {
  datatype Option<+T> = None | Some(value: T)

  datatype Result<+T, +E> = Ok(value: T) | Err(error: E)
}
